=== FILE: README.md ===
# github-ssh-sync, modelled in Dafny

`sync-github-keys.js` is a one-shot root script. It copies each Linux account's public SSH
keys from GitHub into that account's `/home/<name>/.ssh/authorized_keys`, or
`/root/.ssh/authorized_keys` for `root`. Both paths are computed from the login name alone;
the home field of the account's `/etc/passwd` record only decides whether the account is
eligible. The script works in four steps:

- It lists the eligible accounts from the text of `/etc/passwd`. An account is eligible when
  its UID is at least 1000, or its name is `root`. Its home field must also start with
  `/home/` or be `/root`.
- For each account it reads `/home/<name>/.config/github-ssh-sync/config.json` (under
  `/root` for `root`). Accounts without one are skipped. The file's `github_username`
  names the GitHub account whose key list is fetched.
- It tags each fetched key with the marker `# github:<username>`. It then rewrites the
  account's keys file as:
  - every existing non-blank line that does not contain that marker, in file order;
  - then the newly tagged keys;
  - one line each, with a trailing newline.
- It reports how many accounts were synced. Any error thrown on the way ends the run with
  exit code 1.

The model is split into six modules, one per file:

| module | file | what it holds |
|---|---|---|
| `Wrappers` | `wrappers.dfy` | `Option` |
| `Text` | `text.dfy` | the JavaScript string and array operations the script uses, over `seq<char>`: `trim`, `split` on one character, `join`, `includes`, `startsWith`, `filter`, `map` |
| `Passwd` | `passwd.dfy` | `parseInt(_, 10)` and the account filter `getLinuxUsers` |
| `Paths` | `paths.dfy` | `getHomeDir`, `getConfigPath`, `getAuthorizedKeysPath` |
| `KeyMerge` | `keymerge.dfy` | the marker, the tagging, the replace-by-marker merge of `syncKeys`, and its idempotence |
| `Orchestrator` | `orchestrator.dfy` | the loop of `main` as a fold over the account list |

The outside world of `Orchestrator` is held in an `Env` value. The files the loop writes are
a map from path to content, threaded through the fold. `Env` holds three oracles:

- what loading a configuration file gives;
- what fetching a GitHub key list gives;
- whether the file-system calls on a keys file succeed.

Four properties of the script shape the model:

- The ownership marker is `# github:<username>`, appended after a space to each fetched key.
- The account loop has no per-account error handling. The single `try` around `main` turns
  any thrown error into the final report and exit code 1, and the remaining accounts are
  not visited. Such errors include an unreadable or malformed configuration file, a failed
  fetch, and a failed directory creation, read or write. `LoopAbortsIff` and `MainFailsIff`
  state this.
- Existing lines are dropped when they are blank after trimming. Fetched lines are filtered
  the same way but kept untrimmed.
- The marker test is a substring test. Syncing `bob` therefore also deletes lines tagged
  `# github:bob2`. `PrefixIdentityOverMatch` and `BobRemovesBob2` state this.

## Model

| member | source | states |
|---|---|---|
| Passwd.ParseIntDecimal | sync-github-keys.js:41 | `parseInt` reads back the decimal spelling of every natural number |
| Passwd.ParseIntNegative | sync-github-keys.js:41 | a leading minus sign gives the negated value, so a negative UID fails the `>= 1000` test |
| Passwd.ParseIntDigits | sync-github-keys.js:41 | an unsigned run of digits parses to its positional value |
| Passwd.ParseIntNoDigits | sync-github-keys.js:41 | a UID field without any digit is `NaN`, which fails every comparison |
| Passwd.ParseInt | sync-github-keys.js:41 | a number is read only from a field that holds a digit; otherwise the result is `NaN` |
| Passwd.ParseEntry | sync-github-keys.js:37-42 | a record is read exactly when its line has at least six colon-separated fields |
| Passwd.AcceptsIff | sync-github-keys.js:38-46 | a record is accepted iff it has six fields, its UID is at least 1000 or its name is `root`, and its home starts with `/home/` or is `/root` |
| Passwd.AcceptedNames | sync-github-keys.js:36-48 | at most one name per record, and every listed name is the login name of an accepted record |
| Passwd.AcceptedNamesAppend | sync-github-keys.js:36-49 | the filter works line by line: the names from consecutive blocks of records concatenate, so order and duplicates are kept |
| Passwd.AcceptedNamesStep | sync-github-keys.js:36-48 | one more record adds its login name when accepted and nothing otherwise |
| Passwd.AcceptedNamesMember | sync-github-keys.js:44-46 | a name is listed iff some accepted record carries it |
| Passwd.GetLinuxUsers | sync-github-keys.js:32-51 | the loop returns the login names of the accepted records, in record order, and a name is returned iff some accepted line has it |
| Passwd.AcceptsRegularAccount | sync-github-keys.js:44-46 | any record with a UID of at least 1000 and a home under `/home/` or equal to `/root` is accepted, whatever its other fields |
| Passwd.AcceptsRoot | sync-github-keys.js:44-46 | `root` with home `/root` is accepted whatever its UID field says |
| Passwd.RejectsSystemAccount | sync-github-keys.js:44 | a record with a UID below 1000 and a name other than `root` is refused wherever its home is |
| Passwd.RejectsOtherHome | sync-github-keys.js:45 | a record whose home neither starts with `/home/` nor is `/root` is refused whatever its UID |
| Passwd.RejectsShortRecord | sync-github-keys.js:38 | a record with fewer than six fields is refused |
| Paths.HomeDir | sync-github-keys.js:7-12 | the home of `root` is `/root`, any other name `n` gets `/home/n`, and the empty name gets `/home` |
| Paths.ConfigPath | sync-github-keys.js:14-21 | the configuration file of `root` is `/root/.config/github-ssh-sync/config.json`, that of any other non-empty name `n` is `/home/n/.config/github-ssh-sync/config.json`, and that of the empty name is `/home/.config/github-ssh-sync/config.json` |
| Paths.AuthorizedKeysPath | sync-github-keys.js:77-79 | the keys file of `root` is `/root/.ssh/authorized_keys`, that of any other non-empty name `n` is `/home/n/.ssh/authorized_keys`, and that of the empty name is `/home/.ssh/authorized_keys` |
| Paths.AuthorizedKeysPathInjective | sync-github-keys.js:77-79 | two different names never share a keys file |
| Paths.ConfigPathInjective | sync-github-keys.js:14-21 | two different names never share a configuration file |
| Paths.HomeDirPassesHomeTest | sync-github-keys.js:7-12 | the computed home of a non-empty name would pass the filter's home test |
| KeyMerge.Tag | sync-github-keys.js:102 | a tagged key starts with the key and contains the identity's marker, and it holds a newline iff the key or the identity does |
| KeyMerge.KeyLines | sync-github-keys.js:101 | every fetched key line is non-blank and newline-free, and a body that is not blank yields at least one |
| KeyMerge.KeyLinesMember | sync-github-keys.js:101 | a line is a fetched key iff it is a non-blank line of the body |
| KeyMerge.KeyLinesOfLines | sync-github-keys.js:101 | the keys of a body written line by line are exactly its non-blank lines, untrimmed and in order |
| KeyMerge.Tagged | sync-github-keys.js:101-102 | there is one tagged line per fetched key, in order; each starts with its key and contains the identity's marker, and none holds a newline when the identity has none |
| KeyMerge.TagLines | sync-github-keys.js:102 | each tagged line is its key followed by ` # github:<identity>`, in order, one per key |
| KeyMerge.TaggedLines | sync-github-keys.js:101-102 | each tagged line is exactly its fetched key followed by ` # github:<identity>`, for every key, in order |
| KeyMerge.Retained | sync-github-keys.js:107-115 | every surviving line of the existing file is non-blank, newline-free and free of the identity's marker |
| KeyMerge.RetainedMember | sync-github-keys.js:112-114 | a line survives iff it is a non-blank line of the file that does not contain the marker |
| KeyMerge.RetainedForeign | sync-github-keys.js:112-114 | a file with no blank or marked lines is kept whole, verbatim and in order |
| KeyMerge.RetainedOfLines | sync-github-keys.js:107-115 | the survivors of a file are exactly its lines that pass the filter, in file order, whatever lines are dropped between them |
| KeyMerge.ReplaceByMarker | sync-github-keys.js:107-117 | a block of marked lines between two blocks of kept lines is removed, and the lines before and after it survive unchanged and in file order |
| KeyMerge.KeepsUnmarked | sync-github-keys.js:113 | a list whose lines are all non-blank and free of the marker passes the filter whole, unchanged and in order |
| KeyMerge.DropsMarked | sync-github-keys.js:113 | every line containing the marker is dropped |
| KeyMerge.DropsEmptyTail | sync-github-keys.js:111-113 | the empty piece after the final newline never survives |
| KeyMerge.Merge | sync-github-keys.js:117 | the written content always ends with a newline |
| KeyMerge.MergeLines | sync-github-keys.js:117 | read back line by line, the written content is the survivors, then the tagged keys, then the empty tail |
| KeyMerge.FetchedKeys | sync-github-keys.js:60-71 | keys arrive only from a 200 response, as its trimmed body, and the body is empty after trimming iff it is blank |
| KeyMerge.SyncKeys | sync-github-keys.js:94-123 | a fetch that is not a 200 throws, a blank body writes nothing, otherwise the file is written and the logged count is the number of fetched key lines |
| KeyMerge.SyncKeysWrites | sync-github-keys.js:101-119 | a 200 response with a non-blank body always writes, and the written file holds the surviving old lines followed by the newly tagged keys |
| KeyMerge.SurvivorsOfMerged | sync-github-keys.js:107-117 | reading back a merged file keeps exactly the old survivors |
| KeyMerge.MergeIdempotent | sync-github-keys.js:101-117 | merging the same keys into the merged file gives the same file |
| KeyMerge.SyncIdempotent | sync-github-keys.js:94-119 | a second sync with an unchanged key list writes byte-identical content |
| KeyMerge.PrefixIdentityOverMatch | sync-github-keys.js:113 | a line tagged for any identity that extends this one contains this identity's marker and is dropped |
| KeyMerge.BobRemovesBob2 | sync-github-keys.js:113 | syncing `bob` drops a file's line tagged for `bob2` |
| KeyMerge.ForeignTagKept | sync-github-keys.js:113 | a line tagged for an identity whose tag does not contain this marker is kept |
| KeyMerge.SingleKeyIntoFreshFile | sync-github-keys.js:94-119 | one key padded with whitespace, synced into a missing file, yields exactly that key tagged plus a newline, with a count of 1 |
| Orchestrator.RemoteIdentity | sync-github-keys.js:137-142 | an account is synced under an identity iff its configuration loads with that non-empty `github_username` |
| Orchestrator.SyncTurn | sync-github-keys.js:142 | the sync throws iff the fetch fails or the keys file cannot be written when there are keys, and it changes no other file |
| Orchestrator.BlankBodyWritesNothing | sync-github-keys.js:96-99 | a 200 response whose body is blank leaves every file as it was |
| Orchestrator.SyncTurnWrites | sync-github-keys.js:117-119 | a sync with keys that does not throw replaces the keys file with the merged content and changes nothing else |
| Orchestrator.Turn | sync-github-keys.js:130-144 | an account's turn throws iff its configuration cannot be loaded or its sync throws; it is counted iff it names an identity and does not throw; it touches only its own keys file |
| Orchestrator.TurnSyncs | sync-github-keys.js:137-143 | a turn that is counted is the sync of the account's configured identity, and that sync did not throw |
| Orchestrator.TurnWrites | sync-github-keys.js:94-119 | a counted turn leaves its own keys file as `syncKeys` writes it: unchanged for a blank body, otherwise the merge of the trimmed body into the old content |
| Orchestrator.TurnLeaves | sync-github-keys.js:130-144 | a turn that does not throw leaves its own keys file as its sync writes it when the account names an identity, and unchanged otherwise |
| Orchestrator.Loop | sync-github-keys.js:130-144 | a completed loop adds at most one to the count per listed account, and never lowers it |
| Orchestrator.LoopAbortsIff | sync-github-keys.js:126-154 | the loop ends early iff some listed account's turn throws |
| Orchestrator.LoopCount | sync-github-keys.js:128-143 | a completed loop counts every account that names an identity, duplicates included, and nothing else |
| Orchestrator.LoopFrame | sync-github-keys.js:130-144 | a file that is no listed account's keys file is never changed |
| Orchestrator.TurnLocal | sync-github-keys.js:108-119 | a turn reads the files only at its own keys path: two file maps that agree there give the same outcome there |
| Orchestrator.TurnOther | sync-github-keys.js:130-144 | a turn of an account with another keys file does not change what this account's turn leaves in its own keys file |
| Orchestrator.LoopWrites | sync-github-keys.js:130-144 | in a completed loop over distinct accounts, each account's keys file ends as that account's own turn, run on the starting files, left it |
| Orchestrator.LoopSingle | sync-github-keys.js:130-144 | a one-account loop is that account's turn |
| Orchestrator.Main | sync-github-keys.js:125-155 | the exit code is 0 or 1, it is 1 iff the error summary is printed, a success summary has a positive count, and an unreadable database fails the run |
| Orchestrator.MainFailsIff | sync-github-keys.js:151-154 | the run exits with 1 iff the database is unreadable or some eligible account's turn throws |
| Orchestrator.MainSummary | sync-github-keys.js:146-150 | a successful run reports the number of eligible accounts that name an identity, or that there were none |
| Orchestrator.MainCompleted | sync-github-keys.js:125-155 | a run that exits with 0 completed the loop over the eligible accounts, none of which threw, and leaves the files that loop left |
| Orchestrator.MainWrites | sync-github-keys.js:125-144 | after a successful run over a database that lists no name twice, each eligible account's keys file holds what its own sync wrote, or is unchanged when the account names no identity |
| Orchestrator.MainFrame | sync-github-keys.js:125-144 | a file that is no eligible account's keys file is unchanged by any run |
| Orchestrator.DuplicateAccountIdempotent | sync-github-keys.js:130-143 | an account listed twice is counted twice, and its second sync leaves the files as the first left them |
| Orchestrator.HomeFieldIgnored | sync-github-keys.js:42-45 | a regular account whose record says `/root` is accepted, yet its keys file is sought under `/home/<name>` |
| Text.Trim | sync-github-keys.js:71 | `trim` yields the empty string iff the string is all whitespace, and otherwise a string that starts and ends with non-whitespace |
| Text.TrimWithin | sync-github-keys.js:101 | `trim` returns a contiguous slice of its argument |
| Text.TrimIdempotent | sync-github-keys.js:113 | trimming twice is trimming once |
| Text.TrimPadded | sync-github-keys.js:71 | trimming removes exactly the whitespace padding around text |
| Text.Split | sync-github-keys.js:36 | `split` yields at least one piece, no piece holds the separator, and joining the pieces gives back the text |
| Text.SplitJoin | sync-github-keys.js:111 | `split` undoes `join` when no piece holds the separator |
| Text.Join | sync-github-keys.js:117 | the joined text starts with the first piece, and it is free of the separator iff there is at most one piece and that piece is free of it |
| Text.Filter | sync-github-keys.js:101 | `filter` keeps no more elements than it is given, and every element it keeps passes the test |
| Text.FilterSandwich | sync-github-keys.js:112-114 | `filter` removes a block of failing elements from between two passing blocks and keeps both blocks in order |
| Text.Map | sync-github-keys.js:102 | `map` yields one image per element, the image of the element at the same position |
| Text.FilterMember | sync-github-keys.js:101 | an element survives `filter` iff it is in the list and passes the test |
| Text.FilterAppend | sync-github-keys.js:112-114 | `filter` distributes over concatenation |

## Left out

- The HTTPS request is not modelled: chunking, redirects, time-outs, the URL. `Fetch` carries only a status code and the whole body, or a network error.
- File-system effects other than the content of the keys files are not modelled. This covers the modes `0700` and `0600`, and whether the `.ssh` directory exists. A failed `mkdirSync`, `readFileSync` or `writeFileSync` on the keys file is one oracle, `Env.writable`. `existsSync` never throws; it is the key test of the file map.
- Reading `/etc/passwd` is an input of `Main`: `None` when the read throws.
- `loadUserConfig` and `JSON.parse` are an oracle from the configuration path to `ConfigLoad`. The oracle returns no file, a thrown read or parse error, or a parsed value that is falsy or carries an optional string `github_username`. Non-string truthy `github_username` values are not modelled; the script would interpolate them into the URL and the marker.
- Console output is not modelled. Only which summary line `main` ends with is kept (`Summary`).
- `path.join` is modelled as concatenation, with an empty segment dropped. Normalisation of `.`, `..` and `/` inside a login name is not modelled: the name comes from `/etc/passwd`, whose first field has none of them in practice.
- Strings are sequences of code points, not UTF-16 code units. The whitespace set of `trim` is the ECMAScript WhiteSpace and LineTerminator code points.
- `parseInt` is modelled with radix 10: leading whitespace, an optional sign, then the longest run of ASCII digits. Values beyond the exactly representable doubles are not modelled.
- KeyMerge.MergeIdempotent: requires that the identity contains no newline. With a newline the tagged line splits in two on read-back, and the second sync does not reproduce the file.
- KeyMerge.SyncIdempotent: requires a newline-free identity, for the same reason.
- Orchestrator.DuplicateAccountIdempotent: requires a newline-free identity, for the same reason.
- KeyMerge.MergeLines: requires a newline-free identity. With a newline in it, each tagged line splits into two pieces on read-back.
- KeyMerge.SyncKeysWrites: requires a newline-free identity, for the same reason as `MergeLines`.
- Orchestrator.DuplicateAccountIdempotent: holds because `Env.fetch` is a function of the identity, so both fetches in one run return the same response. The script makes a fresh HTTPS request on every turn, and the remote list may change between them. The same assumption makes "this account's turn throws" a fixed fact in `LoopAbortsIff` and `MainFailsIff`.
- A turn that throws leaves the files as they were before it. A `writeFileSync` that fails part-way can in fact leave the keys file truncated or half-written; that state is not modelled.
- Orchestrator.LoopWrites and Orchestrator.MainWrites: require that no account is listed twice. A name listed twice has its second turn run on what its first turn wrote; `DuplicateAccountIdempotent` covers that case for one account.
- The `async` scheduling is not modelled: the loop awaits each account in turn, so the fold is sequential.

=== FILE: keymerge.dfy ===
/**
 * The replace-by-marker merge of `syncKeys`: the fetched key list is tagged with an
 * ownership marker for the remote identity, every existing line that contains that marker
 * is dropped, and the tagged keys are appended after the lines that remain.
 */
module KeyMerge {
  import opened Wrappers
  import opened Text

  /** The ownership marker for a remote identity. */
  function Marker(identity: string): string {
    "# github:" + identity
  }

  /** A fetched key tagged with the marker of the identity that published it. */
  function Tag(identity: string, key: string): (r: string)
    ensures Contains(r, Marker(identity))
    ensures StartsWith(r, key)
    ensures '\n' in r <==> '\n' in key || '\n' in identity
  {
    var r := key + " " + Marker(identity);
    assert '\n' !in " # github:";
    ContainsInfix(key + " ", Marker(identity), "");
    assert key + " " + Marker(identity) + "" == r;
    r
  }

  /** `line.trim()` is truthy. */
  predicate NonBlankLine(line: string) {
    Trim(line) != ""
  }

  /** The fetched keys: the lines of the trimmed body that are not blank, each kept untrimmed. */
  function KeyLines(keys: string): (r: seq<string>)
    ensures forall i :: 0 <= i < |r| ==> !Blank(r[i]) && '\n' !in r[i]
    ensures !Blank(keys) ==> |r| >= 1
  {
    FilterLinesFree(Split(keys, '\n'), NonBlankLine);
    NonBlankKeysSurvive(keys);
    Filter(Split(keys, '\n'), NonBlankLine)
  }

  /** A line is a fetched key exactly when it is a non-blank line of the body. */
  lemma KeyLinesMember(keys: string, line: string)
    ensures line in KeyLines(keys) <==> line in Split(keys, '\n') && !Blank(line)
  {
    FilterMember(Split(keys, '\n'), NonBlankLine, line);
  }

  /** The keys of a body written out line by line are its non-blank lines, untrimmed and in order. */
  lemma KeyLinesOfLines(xs: seq<string>)
    requires |xs| >= 1 && forall i :: 0 <= i < |xs| ==> '\n' !in xs[i]
    ensures KeyLines(Join(xs, '\n')) == Filter(xs, NonBlankLine)
  {
    SplitJoin(xs, '\n');
  }

  /** Filtering newline-free lines yields newline-free lines. */
  lemma FilterLinesFree(lines: seq<string>, p: string -> bool)
    requires forall i :: 0 <= i < |lines| ==> '\n' !in lines[i]
    ensures forall i :: 0 <= i < |Filter(lines, p)| ==> '\n' !in Filter(lines, p)[i]
  {
    var r := Filter(lines, p);
    forall i | 0 <= i < |r| ensures '\n' !in r[i] {
      FilterMember(lines, p, r[i]);
    }
  }

  /** A body that is not blank has at least one non-blank line. */
  lemma NonBlankKeysSurvive(keys: string)
    ensures !Blank(keys) ==> |Filter(Split(keys, '\n'), NonBlankLine)| >= 1
  {
    var lines := Split(keys, '\n');
    if !Blank(keys) {
      SplitNotAllBlank(keys, '\n');
      var j :| 0 <= j < |lines| && !Blank(lines[j]);
      FilterMember(lines, NonBlankLine, lines[j]);
    }
  }

  /** Each line with this identity's marker appended, in order (`keyLines.map(...)`). */
  function TagLines(identity: string, lines: seq<string>): (r: seq<string>)
    ensures |r| == |lines|
    ensures forall i :: 0 <= i < |r| ==> r[i] == lines[i] + " # github:" + identity
    ensures forall i :: 0 <= i < |r| ==> Contains(r[i], Marker(identity))
    ensures forall i :: 0 <= i < |r| ==> ('\n' in r[i] <==> '\n' in lines[i] || '\n' in identity)
  {
    if |lines| == 0 then []
    else [Tag(identity, lines[0])] + TagLines(identity, lines[1..])
  }

  /** Every fetched key tagged for this identity, in fetched order. */
  function Tagged(identity: string, keys: string): (r: seq<string>)
    ensures |r| == |KeyLines(keys)|
    ensures forall i :: 0 <= i < |r| ==> StartsWith(r[i], KeyLines(keys)[i]) && Contains(r[i], Marker(identity))
    ensures '\n' !in identity ==> forall i :: 0 <= i < |r| ==> '\n' !in r[i]
  {
    TagLines(identity, KeyLines(keys))
  }

  /**
   * Each tagged line is exactly its key, a space and the marker (`${key} # github:${user}`).
   * Stated apart from `Tagged` so that the merge lemmas do not carry the quantifier.
   */
  lemma TaggedLines(identity: string, keys: string)
    ensures forall i :: 0 <= i < |Tagged(identity, keys)| ==>
      Tagged(identity, keys)[i] == KeyLines(keys)[i] + " # github:" + identity
  {
  }

  /** An existing line survives the merge: it is not blank and does not mention the marker. */
  predicate Keep(identity: string, line: string) {
    NonBlankLine(line) && !Contains(line, Marker(identity))
  }

  /** `Keep` for one identity, as the filter callback. */
  function Keeper(identity: string): string -> bool {
    (line: string) => Keep(identity, line)
  }

  /** The existing lines that survive, in file order; a missing file has none. */
  function Retained(identity: string, existing: Option<string>): (r: seq<string>)
    ensures forall i :: 0 <= i < |r| ==>
      !Blank(r[i]) && '\n' !in r[i] && !Contains(r[i], Marker(identity))
  {
    match existing
    case None => []
    case Some(text) =>
      FilterLinesFree(Split(text, '\n'), Keeper(identity));
      Filter(Split(text, '\n'), Keeper(identity))
  }

  /**
   * The new authorized-keys text: the surviving lines, then the tagged keys, one per line
   * with a trailing newline. `keys` is the trimmed fetched body, known to be non-empty.
   */
  function Merge(identity: string, keys: string, existing: Option<string>): (r: string)
    requires !Blank(keys)
    ensures |r| > 0 && r[|r| - 1] == '\n'
  {
    Join(Retained(identity, existing) + Tagged(identity, keys), '\n') + "\n"
  }

  /**
   * Read back line by line, the merged file is the surviving lines, then the tagged keys,
   * then the empty piece after the final newline.
   */
  lemma MergeLines(identity: string, keys: string, existing: Option<string>)
    requires !Blank(keys) && '\n' !in identity
    ensures Split(Merge(identity, keys, existing), '\n') ==
      Retained(identity, existing) + Tagged(identity, keys) + [""]
  {
    var kept, tagged := Retained(identity, existing), Tagged(identity, keys);
    FreeOfAppend(kept, tagged, '\n');
    MergedLinesSplit(kept + tagged);
  }

  /** Lines free of newlines, joined and terminated by a newline, split back with an empty tail. */
  lemma MergedLinesSplit(lines: seq<string>)
    requires |lines| >= 1
    requires forall i :: 0 <= i < |lines| ==> '\n' !in lines[i]
    ensures Split(Join(lines, '\n') + "\n", '\n') == lines + [""]
  {
    JoinTrailingEmpty(lines, '\n');
    SplitJoin(lines + [""], '\n');
  }

  /** What happened when the key list was fetched (the network call itself is not modelled). */
  datatype Fetch = Response(status: int, body: string) | NetworkError

  /** `fetchGitHubKeys`: the trimmed body of a 200 response; anything else is an error. */
  function FetchedKeys(f: Fetch): (r: Option<string>)
    ensures r.Some? <==> f.Response? && f.status == 200
    ensures r.Some? ==> r.value == Trim(f.body) && (r.value == "" <==> Blank(f.body))
  {
    if f.Response? && f.status == 200 then Some(Trim(f.body)) else None
  }

  /** The outcome of `syncKeys` for one account, before the file is written. */
  datatype SyncOutcome =
    | FetchFailed                             // the promise rejects: the error propagates
    | NoKeys                                  // empty body: warned, file left untouched
    | Write(content: string, keyCount: nat)   // overwrite the file; keyCount is logged

  /** `syncKeys` given the fetch outcome and the current file (if any). */
  function SyncKeys(identity: string, fetched: Fetch, existing: Option<string>): (r: SyncOutcome)
    ensures r.FetchFailed? <==> !(fetched.Response? && fetched.status == 200)
    ensures r.NoKeys? <==> fetched.Response? && fetched.status == 200 && Blank(fetched.body)
    ensures r.Write? ==> r.keyCount >= 1 && r.keyCount == |Tagged(identity, Trim(fetched.body))|
  {
    match FetchedKeys(fetched)
    case None => FetchFailed
    case Some(keys) =>
      if keys == "" then NoKeys
      else
        assert !Blank(keys);
        Write(Merge(identity, keys, existing), |KeyLines(keys)|)
  }

  /** A 200 response with keys writes the surviving lines followed by the newly tagged keys. */
  lemma SyncKeysWrites(identity: string, body: string, existing: Option<string>)
    requires '\n' !in identity && !Blank(body)
    ensures SyncKeys(identity, Response(200, body), existing).Write?
    ensures Split(SyncKeys(identity, Response(200, body), existing).content, '\n') ==
      Retained(identity, existing) + Tagged(identity, Trim(body)) + [""]
  {
    MergeLines(identity, Trim(body), existing);
  }

  /** A line survives exactly when it is a non-blank line of the file lacking the marker. */
  lemma RetainedMember(identity: string, text: string, line: string)
    ensures line in Retained(identity, Some(text)) <==>
      line in Split(text, '\n') && !Blank(line) && !Contains(line, Marker(identity))
  {
    FilterMember(Split(text, '\n'), Keeper(identity), line);
  }

  /** The survivors of a file written line by line are exactly its kept lines, in file order. */
  lemma RetainedOfLines(identity: string, xs: seq<string>)
    requires |xs| >= 1 && forall i :: 0 <= i < |xs| ==> '\n' !in xs[i]
    ensures Retained(identity, Some(Join(xs, '\n'))) == Filter(xs, Keeper(identity))
  {
    SplitJoin(xs, '\n');
  }

  /**
   * Replace-by-marker: the marked block is dropped from between two blocks of kept lines,
   * and the lines before and after it survive unchanged and in file order.
   */
  lemma ReplaceByMarker(identity: string, a: seq<string>, m: seq<string>, b: seq<string>)
    requires |a + m + b| >= 1
    requires forall i :: 0 <= i < |a| ==> Keep(identity, a[i]) && '\n' !in a[i]
    requires forall i :: 0 <= i < |m| ==> Contains(m[i], Marker(identity)) && '\n' !in m[i]
    requires forall i :: 0 <= i < |b| ==> Keep(identity, b[i]) && '\n' !in b[i]
    ensures Retained(identity, Some(Join(a + m + b, '\n'))) == a + b
  {
    var keep := Keeper(identity);
    FreeOfAppend(a, m, '\n');
    FreeOfAppend(a + m, b, '\n');
    RetainedOfLines(identity, a + m + b);
    FilterSandwich(a, m, b, keep);
  }

  /** Lines that neither are blank nor mention the marker are all kept, unchanged and in order. */
  lemma RetainedForeign(identity: string, text: string)
    requires forall i :: 0 <= i < |Split(text, '\n')| ==> Keep(identity, Split(text, '\n')[i])
    ensures Retained(identity, Some(text)) == Split(text, '\n')
  {
    FilterAll(Split(text, '\n'), Keeper(identity));
  }

  /** Lines that are non-blank and lack the marker all survive, unchanged and in order. */
  lemma KeepsUnmarked(identity: string, lines: seq<string>)
    requires forall i :: 0 <= i < |lines| ==> !Blank(lines[i]) && !Contains(lines[i], Marker(identity))
    ensures Filter(lines, Keeper(identity)) == lines
  {
    var keep := Keeper(identity);
    forall i | 0 <= i < |lines| ensures keep(lines[i]) {
      assert NonBlankLine(lines[i]);
    }
    FilterAll(lines, keep);
  }

  /** Lines that contain the marker are all dropped. */
  lemma DropsMarked(identity: string, lines: seq<string>)
    requires forall i :: 0 <= i < |lines| ==> Contains(lines[i], Marker(identity))
    ensures Filter(lines, Keeper(identity)) == []
  {
    FilterNone(lines, Keeper(identity));
  }

  /** The empty line after the final newline is dropped. */
  lemma DropsEmptyTail(identity: string)
    ensures Filter([""], Keeper(identity)) == []
  {
    assert Trim("") == "";
    FilterNone([""], Keeper(identity));
  }

  /** Reading back a merged file keeps the survivors and drops the tagged keys and the empty tail. */
  lemma SurvivorsOfMerged(identity: string, kept: seq<string>, tagged: seq<string>)
    requires forall i :: 0 <= i < |kept| ==> !Blank(kept[i]) && !Contains(kept[i], Marker(identity))
    requires forall i :: 0 <= i < |tagged| ==> Contains(tagged[i], Marker(identity))
    ensures Filter(kept + tagged + [""], Keeper(identity)) == kept
  {
    FilterAppend(kept + tagged, [""], Keeper(identity));
    FilterAppend(kept, tagged, Keeper(identity));
    KeepsUnmarked(identity, kept);
    DropsMarked(identity, tagged);
    DropsEmptyTail(identity);
  }

  /** Merging the same keys again into the merged file gives back the same file. */
  lemma {:induction false} MergeIdempotent(identity: string, keys: string, existing: Option<string>)
    requires !Blank(keys) && '\n' !in identity
    ensures Merge(identity, keys, Some(Merge(identity, keys, existing))) == Merge(identity, keys, existing)
  {
    var kept := Retained(identity, existing);
    var tagged := Tagged(identity, keys);
    var text := Merge(identity, keys, existing);
    MergeLines(identity, keys, existing);
    SurvivorsOfMerged(identity, kept, tagged);
    assert Retained(identity, Some(text)) == kept;
  }

  /** Syncing an unchanged key list a second time writes byte-identical content. */
  lemma SyncIdempotent(identity: string, body: string, existing: Option<string>)
    requires '\n' !in identity && !Blank(body)
    ensures var first := SyncKeys(identity, Response(200, body), existing);
      first.Write? && SyncKeys(identity, Response(200, body), Some(first.content)) == first
  {
    MergeIdempotent(identity, Trim(body), existing);
  }

  /**
   * The marker test is a substring test: syncing an identity also removes lines tagged for
   * every identity that has it as a prefix.
   */
  lemma PrefixIdentityOverMatch(identity: string, suffix: string, key: string)
    ensures Contains(Tag(identity + suffix, key), Marker(identity))
    ensures !Keep(identity, Tag(identity + suffix, key))
  {
    var line := Tag(identity + suffix, key);
    assert line == key + " " + Marker(identity) + suffix;
    ContainsInfix(key + " ", Marker(identity), suffix);
  }

  /** Syncing `bob` drops the keys tagged for `bob2`. */
  lemma BobRemovesBob2(key: string)
    requires '\n' !in key
    ensures Retained("bob", Some(Tag("bob2", key) + "\n")) == []
  {
    var line := Tag("bob2", key);
    assert "bob" + "2" == "bob2";
    PrefixIdentityOverMatch("bob", "2", key);
    assert '\n' !in line;
    MergedLinesSplit([line]);
    assert Split(line + "\n", '\n') == [line] + [""];
    FilterAppend([line], [""], Keeper("bob"));
    DropsMarked("bob", [line]);
    DropsEmptyTail("bob");
  }

  /** A line tagged for an unrelated identity (no substring overlap) is kept. */
  lemma ForeignTagKept(identity: string, other: string, key: string)
    requires !Contains(Tag(other, key), Marker(identity))
    ensures Keep(identity, Tag(other, key))
  {
    assert !Blank(Marker(other)) by { assert Marker(other)[0] == '#'; }
    ContainsNonBlank(Tag(other, key), Marker(other));
    TrimNonEmpty(Tag(other, key));
  }

  /** A string that is not all whitespace counts as a non-blank line (`line.trim()` is truthy). */
  lemma TrimNonEmpty(s: string)
    requires !Blank(s)
    ensures NonBlankLine(s)
  {
  }

  /** A single key, padded with whitespace in the fetched body, lands in a fresh file tagged. */
  lemma SingleKeyIntoFreshFile(identity: string, lead: string, key: string, trail: string)
    requires Blank(lead) && Blank(trail) && '\n' !in key
    requires |key| > 0 && !IsWhitespace(key[0]) && !IsWhitespace(key[|key| - 1])
    ensures SyncKeys(identity, Response(200, lead + key + trail), None) ==
      Write(key + " # github:" + identity + "\n", 1)
  {
    TrimPadded(lead, key, trail);
    SplitNoSeparator(key, '\n');
    assert NonBlankLine(key);
    assert KeyLines(key) == [key];
    assert Tagged(identity, key) == [key + " # github:" + identity];
    assert Retained(identity, None) == [];
  }
}

=== FILE: orchestrator.dfy ===
/**
 * The account loop of `main`: for each eligible login name, in database order, load the
 * per-account configuration, sync the keys of the configured remote identity, and count the
 * accounts synced. Configuration files, the key fetch and the filesystem are oracles; the
 * authorized-keys files are a map from path to content threaded through the loop.
 * Any thrown error ends the whole loop with exit code 1.
 */
module Orchestrator {
  import opened Wrappers
  import opened Text
  import opened Passwd
  import opened Paths
  import opened KeyMerge

  /** The parsed configuration, as far as `main` inspects it. */
  datatype ConfigValue =
    | Falsy                                    // JSON `null`, `false`, `0` or `""`
    | Value(githubUsername: Option<string>)    // any truthy value; None when the field is absent

  /** `loadUserConfig`: no file, an error thrown by reading or parsing, or the parsed value. */
  datatype ConfigLoad = NoConfigFile | LoadError | Loaded(config: ConfigValue)

  /** The world outside the script. */
  datatype Env = Env(
    configAt: string -> ConfigLoad,   // what loading the file at a configuration path gives
    fetch: string -> Fetch,           // what fetching a remote identity's key list gives
    writable: string -> bool)         // whether creating the directory of, reading and writing a keys file succeed

  /** The authorized-keys files that exist, by path. */
  type Files = map<string, string>

  /** How one account's turn in the loop ends. */
  datatype Step =
    | NotManaged         // no configuration, or a falsy one: skipped silently
    | MissingIdentity    // `github_username` missing or falsy: logged and skipped
    | Abort              // an error was thrown: the loop ends
    | Synced(files: Files)

  /** The truthy `github_username` an account's configuration names, if any. */
  function RemoteIdentity(env: Env, user: string): (r: Option<string>)
    ensures r.Some? ==> r.value != "" && env.configAt(ConfigPath(user)) == Loaded(Value(Some(r.value)))
    ensures forall identity :: env.configAt(ConfigPath(user)) == Loaded(Value(Some(identity))) && identity != "" ==>
      r == Some(identity)
  {
    match env.configAt(ConfigPath(user))
    case Loaded(Value(Some(identity))) => if identity != "" then Some(identity) else None
    case _ => None
  }

  /** `syncKeys` throws: the fetch fails, or there are keys and the filesystem calls fail. */
  predicate SyncThrows(env: Env, identity: string, path: string) {
    var fetched := env.fetch(identity);
    || !(fetched.Response? && fetched.status == 200)
    || (!Blank(fetched.body) && !env.writable(path))
  }

  /** The account's turn throws: its configuration cannot be read, or its sync throws. */
  predicate Throws(env: Env, user: string) {
    || env.configAt(ConfigPath(user)).LoadError?
    || (RemoteIdentity(env, user).Some? &&
        SyncThrows(env, RemoteIdentity(env, user).value, AuthorizedKeysPath(user)))
  }

  /** Whether an account is counted as synced when its turn completes. */
  function Managed(env: Env): string -> bool {
    (user: string) => RemoteIdentity(env, user).Some?
  }

  /** The current content of a file, `None` when it does not exist (`existsSync`). */
  function Existing(files: Files, path: string): Option<string> {
    if path in files then Some(files[path]) else None
  }

  /** `await syncKeys(identity, user)` against the keys file at `path`. */
  function SyncTurn(env: Env, identity: string, path: string, files: Files): (r: Step)
    ensures r.Abort? <==> SyncThrows(env, identity, path)
    ensures !r.Abort? ==> r.Synced?
    ensures r.Synced? ==> forall p {:trigger Existing(r.files, p)} :: p != path ==> Existing(r.files, p) == Existing(files, p)
  {
    match SyncKeys(identity, env.fetch(identity), Existing(files, path))
    case FetchFailed => Abort
    case NoKeys => Synced(files)
    case Write(content, _) =>
      if env.writable(path) then UpdateFrame(files, path, content); Synced(files[path := content]) else Abort
  }

  /**
   * Writing one file leaves every other file as it was. Stated apart so that `SyncTurn` sees
   * the quantified fact only in its write branch.
   */
  lemma UpdateFrame(files: Files, path: string, content: string)
    ensures forall p :: p != path ==> Existing(files[path := content], p) == Existing(files, p)
  {
  }

  /** A 200 response with a blank body leaves every file as it was. */
  lemma BlankBodyWritesNothing(env: Env, identity: string, path: string, files: Files, body: string)
    requires env.fetch(identity) == Response(200, body) && Blank(body)
    ensures SyncTurn(env, identity, path, files) == Synced(files)
  {
    var outcome := SyncKeys(identity, env.fetch(identity), Existing(files, path));
    assert outcome.NoKeys?;
  }

  /** A sync that writes puts the merged content at the keys path, and nowhere else. */
  lemma SyncTurnWrites(env: Env, identity: string, path: string, files: Files)
    requires !SyncThrows(env, identity, path) && !Blank(env.fetch(identity).body)
    ensures SyncTurn(env, identity, path, files) ==
      Synced(files[path := Merge(identity, Trim(env.fetch(identity).body), Existing(files, path))])
  {
    var outcome := SyncKeys(identity, env.fetch(identity), Existing(files, path));
    assert outcome.Write?;
  }

  /** One iteration of the loop in `main`. */
  function Turn(env: Env, user: string, files: Files): (r: Step)
    ensures r.Abort? <==> Throws(env, user)
    ensures r.Synced? <==> Managed(env)(user) && !Throws(env, user)
    ensures r.MissingIdentity? ==> env.configAt(ConfigPath(user)).Loaded?
    ensures r.Synced? ==>
      forall p {:trigger Existing(r.files, p)} :: p != AuthorizedKeysPath(user) ==> Existing(r.files, p) == Existing(files, p)
  {
    var load := env.configAt(ConfigPath(user));
    if load.LoadError? then Abort
    else
      match RemoteIdentity(env, user)
      case None => if load.Loaded? && load.config.Value? then MissingIdentity else NotManaged
      case Some(identity) => SyncTurn(env, identity, AuthorizedKeysPath(user), files)
  }

  /**
   * What `syncKeys` leaves in a keys file that held `existing`: the merge of the fetched keys
   * into it, or the file as it was when there are none. A failed fetch throws before writing.
   */
  function SyncedContent(identity: string, fetched: Fetch, existing: Option<string>): Option<string> {
    match FetchedKeys(fetched)
    case None => existing
    case Some(keys) => if Blank(keys) then existing else Some(Merge(identity, keys, existing))
  }

  /** A synced turn is the sync of the account's remote identity, and that sync did not throw. */
  lemma TurnSyncs(env: Env, user: string, files: Files)
    requires Turn(env, user, files).Synced?
    ensures RemoteIdentity(env, user).Some?
    ensures !SyncThrows(env, RemoteIdentity(env, user).value, AuthorizedKeysPath(user))
    ensures Turn(env, user, files) == SyncTurn(env, RemoteIdentity(env, user).value, AuthorizedKeysPath(user), files)
  {
  }

  /** A synced sync of a blank body leaves the keys file as it was. */
  lemma SyncedBlank(env: Env, user: string, files: Files, identity: string)
    requires RemoteIdentity(env, user) == Some(identity) && !SyncThrows(env, identity, AuthorizedKeysPath(user))
    requires Turn(env, user, files) == SyncTurn(env, identity, AuthorizedKeysPath(user), files)
    requires Blank(env.fetch(identity).body)
    ensures Existing(Next(env, user, files), AuthorizedKeysPath(user)) ==
      SyncedContent(identity, env.fetch(identity), Existing(files, AuthorizedKeysPath(user)))
  {
    BlankBodyWritesNothing(env, identity, AuthorizedKeysPath(user), files, env.fetch(identity).body);
  }

  /** A synced sync of a body with keys leaves the merge in the keys file. */
  lemma SyncedMerged(env: Env, user: string, files: Files, identity: string)
    requires RemoteIdentity(env, user) == Some(identity) && !SyncThrows(env, identity, AuthorizedKeysPath(user))
    requires Turn(env, user, files) == SyncTurn(env, identity, AuthorizedKeysPath(user), files)
    requires !Blank(env.fetch(identity).body)
    ensures Existing(Next(env, user, files), AuthorizedKeysPath(user)) ==
      SyncedContent(identity, env.fetch(identity), Existing(files, AuthorizedKeysPath(user)))
  {
    SyncTurnWrites(env, identity, AuthorizedKeysPath(user), files);
  }

  /** A synced turn leaves in the account's own keys file what its sync writes there. */
  lemma TurnWrites(env: Env, user: string, files: Files)
    requires Turn(env, user, files).Synced?
    ensures RemoteIdentity(env, user).Some?
    ensures Existing(Next(env, user, files), AuthorizedKeysPath(user)) ==
      SyncedContent(RemoteIdentity(env, user).value, env.fetch(RemoteIdentity(env, user).value),
        Existing(files, AuthorizedKeysPath(user)))
  {
    TurnSyncs(env, user, files);
    var identity := RemoteIdentity(env, user).value;
    if Blank(env.fetch(identity).body) {
      SyncedBlank(env, user, files, identity);
    } else {
      SyncedMerged(env, user, files, identity);
    }
  }

  /** How the loop ends: every account done, with the count, or an error thrown part-way. */
  datatype LoopEnd = Completed(synced: nat, files: Files) | Aborted(files: Files)

  /** The loop over the accounts, in order, from a running count. */
  function Loop(env: Env, users: seq<string>, files: Files, synced: nat): (r: LoopEnd)
    ensures r.Completed? ==> synced <= r.synced <= synced + |users|
  {
    if |users| == 0 then Completed(synced, files)
    else
      match Turn(env, users[0], files)
      case Abort => Aborted(files)
      case Synced(next) => Loop(env, users[1..], next, synced + 1)
      case _ => Loop(env, users[1..], files, synced)
  }

  /** Some listed account's turn throws. */
  predicate AnyThrows(env: Env, users: seq<string>) {
    exists user :: user in users && Throws(env, user)
  }

  /** Some account throws exactly when the first one does or one of the rest does. */
  lemma AnyThrowsCons(env: Env, users: seq<string>)
    requires |users| > 0
    ensures AnyThrows(env, users) <==> Throws(env, users[0]) || AnyThrows(env, users[1..])
  {
    assert users == [users[0]] + users[1..];
  }

  /** The loop aborts exactly when some account's turn throws. */
  lemma {:induction false} LoopAbortsIff(env: Env, users: seq<string>, files: Files, synced: nat)
    ensures Loop(env, users, files, synced).Aborted? <==> AnyThrows(env, users)
  {
    if |users| > 0 {
      AnyThrowsCons(env, users);
      var step := Turn(env, users[0], files);
      if !step.Abort? {
        var next := if step.Synced? then step.files else files;
        var count := if step.Synced? then synced + 1 else synced;
        assert Loop(env, users, files, synced) == Loop(env, users[1..], next, count);
        LoopAbortsIff(env, users[1..], next, count);
      }
    }
  }

  /** A completed loop has counted every managed account, duplicates included, and nothing else. */
  lemma {:induction false} LoopCount(env: Env, users: seq<string>, files: Files, synced: nat)
    requires Loop(env, users, files, synced).Completed?
    ensures Loop(env, users, files, synced).synced == synced + |Filter(users, Managed(env))|
  {
    if |users| > 0 {
      var step := Turn(env, users[0], files);
      var next := if step.Synced? then step.files else files;
      var count := if step.Synced? then synced + 1 else synced;
      LoopCount(env, users[1..], next, count);
    }
  }

  /** A file that belongs to none of the listed accounts is never touched by the loop. */
  lemma {:induction false} LoopFrame(env: Env, users: seq<string>, files: Files, synced: nat, path: string)
    requires forall i :: 0 <= i < |users| ==> AuthorizedKeysPath(users[i]) != path
    ensures Existing(Loop(env, users, files, synced).files, path) == Existing(files, path)
  {
    if |users| > 0 {
      var step := Turn(env, users[0], files);
      var next := if step.Synced? then step.files else files;
      var count := if step.Synced? then synced + 1 else synced;
      LoopFrame(env, users[1..], next, count, path);
    }
  }

  /** The files an account's turn leaves for the next one: its writes when it synced, else unchanged. */
  function Next(env: Env, user: string, files: Files): Files {
    match Turn(env, user, files)
    case Synced(written) => written
    case _ => files
  }

  /** The running count after an account's turn. */
  function NextCount(env: Env, user: string, files: Files, synced: nat): nat {
    if Turn(env, user, files).Synced? then synced + 1 else synced
  }

  /** A turn reads the files only at its own keys path: equal there, equal outcomes there. */
  lemma TurnLocal(env: Env, user: string, f1: Files, f2: Files)
    requires Existing(f1, AuthorizedKeysPath(user)) == Existing(f2, AuthorizedKeysPath(user))
    ensures Turn(env, user, f1).Synced? <==> Turn(env, user, f2).Synced?
    ensures Existing(Next(env, user, f1), AuthorizedKeysPath(user)) ==
      Existing(Next(env, user, f2), AuthorizedKeysPath(user))
  {
  }

  /** The turn of an account with another keys file neither reads nor writes this one. */
  lemma TurnOther(env: Env, first: string, user: string, files: Files)
    requires AuthorizedKeysPath(user) != AuthorizedKeysPath(first)
    ensures Existing(Next(env, user, Next(env, first, files)), AuthorizedKeysPath(user)) ==
      Existing(Next(env, user, files), AuthorizedKeysPath(user))
  {
    var path := AuthorizedKeysPath(user);
    assert Existing(Next(env, first, files), path) == Existing(files, path);
    TurnLocal(env, user, Next(env, first, files), files);
  }

  /** A completed loop has gone past its first account's turn, and the rest of it completed. */
  lemma LoopTailCompleted(env: Env, users: seq<string>, files: Files, synced: nat)
    requires |users| > 0 && Loop(env, users, files, synced).Completed?
    ensures Loop(env, users[1..], Next(env, users[0], files), NextCount(env, users[0], files, synced)).Completed?
  {
  }

  /** A completed loop ends with the files the rest of it ends with. */
  lemma LoopTailFiles(env: Env, users: seq<string>, files: Files, synced: nat, path: string)
    requires |users| > 0 && Loop(env, users, files, synced).Completed?
    ensures Existing(Loop(env, users[1..], Next(env, users[0], files), NextCount(env, users[0], files, synced)).files, path) ==
      Existing(Loop(env, users, files, synced).files, path)
  {
  }

  /** No account is listed twice. */
  predicate Distinct(users: seq<string>) {
    forall a, b :: 0 <= a < b < |users| ==> users[a] != users[b]
  }

  /** The accounts after the first are distinct. */
  lemma DistinctTail(users: seq<string>)
    requires |users| > 0 && Distinct(users)
    ensures Distinct(users[1..])
  {
    var rest := users[1..];
    forall a, b | 0 <= a < b < |rest| ensures rest[a] != rest[b] {
      assert rest[a] == users[a + 1] && rest[b] == users[b + 1];
    }
  }

  /** No later account shares the first account's keys file. */
  lemma FirstPathUnshared(users: seq<string>)
    requires |users| > 0 && Distinct(users)
    ensures forall i :: 0 <= i < |users[1..]| ==> AuthorizedKeysPath(users[1..][i]) != AuthorizedKeysPath(users[0])
  {
    var rest := users[1..];
    forall i | 0 <= i < |rest| ensures AuthorizedKeysPath(rest[i]) != AuthorizedKeysPath(users[0]) {
      assert rest[i] == users[i + 1];
      if AuthorizedKeysPath(rest[i]) == AuthorizedKeysPath(users[0]) {
        AuthorizedKeysPathInjective(rest[i], users[0]);
      }
    }
  }

  /** Account `j` exists, no account is listed twice, and the loop completes. */
  predicate WritesReady(env: Env, users: seq<string>, files: Files, synced: nat, j: nat) {
    j < |users| && Distinct(users) && Loop(env, users, files, synced).Completed?
  }

  /** The keys file of account `j` ends the loop as that account's own turn left it. */
  predicate KeysFileAsTurnLeft(env: Env, users: seq<string>, files: Files, synced: nat, j: nat)
    requires j < |users|
  {
    Existing(Loop(env, users, files, synced).files, AuthorizedKeysPath(users[j])) ==
      Existing(Next(env, users[j], files), AuthorizedKeysPath(users[j]))
  }

  /** The rest of a ready loop is ready for the next account down. */
  lemma WritesReadyTail(env: Env, users: seq<string>, files: Files, synced: nat, j: nat)
    requires 0 < j && WritesReady(env, users, files, synced, j)
    ensures WritesReady(env, users[1..], Next(env, users[0], files), NextCount(env, users[0], files, synced), j - 1)
  {
    LoopTailCompleted(env, users, files, synced);
    DistinctTail(users);
  }

  /** The first account's keys file ends as its turn left it. */
  lemma LoopWritesFirst(env: Env, users: seq<string>, files: Files, synced: nat)
    requires WritesReady(env, users, files, synced, 0)
    ensures KeysFileAsTurnLeft(env, users, files, synced, 0)
  {
    FirstPathUnshared(users);
    LoopFrame(env, users[1..], Next(env, users[0], files), NextCount(env, users[0], files, synced), AuthorizedKeysPath(users[0]));
  }

  /** A later account's keys file ends as its turn left it, if it does so in the rest of the loop. */
  lemma {:induction false} LoopWritesLater(env: Env, users: seq<string>, files: Files, synced: nat, j: nat)
    requires 0 < j && WritesReady(env, users, files, synced, j)
    requires KeysFileAsTurnLeft(env, users[1..], Next(env, users[0], files), NextCount(env, users[0], files, synced), j - 1)
    ensures KeysFileAsTurnLeft(env, users, files, synced, j)
  {
    var user := users[j];
    assert users[1..][j - 1] == user;
    LoopTailFiles(env, users, files, synced, AuthorizedKeysPath(user));
    assert AuthorizedKeysPath(user) != AuthorizedKeysPath(users[0]) by {
      if AuthorizedKeysPath(user) == AuthorizedKeysPath(users[0]) {
        AuthorizedKeysPathInjective(user, users[0]);
      }
    }
    TurnOther(env, users[0], user, files);
  }

  /** `KeysFileAsTurnLeft` for every account of a ready loop, by induction over the accounts. */
  lemma {:induction false} KeysFilesAsTurnsLeft(env: Env, users: seq<string>, files: Files, synced: nat, j: nat)
    requires WritesReady(env, users, files, synced, j)
    ensures KeysFileAsTurnLeft(env, users, files, synced, j)
    decreases |users|
  {
    if j == 0 {
      LoopWritesFirst(env, users, files, synced);
    } else {
      WritesReadyTail(env, users, files, synced, j);
      KeysFilesAsTurnsLeft(env, users[1..], Next(env, users[0], files), NextCount(env, users[0], files, synced), j - 1);
      LoopWritesLater(env, users, files, synced, j);
    }
  }

  /**
   * In a completed loop over distinct accounts, each account's keys file ends as that
   * account's own turn leaves it, whatever the other accounts' turns wrote.
   */
  lemma LoopWrites(env: Env, users: seq<string>, files: Files, synced: nat, j: nat)
    requires j < |users| && Distinct(users)
    requires Loop(env, users, files, synced).Completed?
    ensures Existing(Loop(env, users, files, synced).files, AuthorizedKeysPath(users[j])) ==
      Existing(Next(env, users[j], files), AuthorizedKeysPath(users[j]))
  {
    KeysFilesAsTurnsLeft(env, users, files, synced, j);
  }

  /** The last line `main` prints. */
  datatype Summary = NoUsersWithConfig | SyncCompleted(count: nat) | ErrorReported

  /** What one run of the script leaves behind. */
  datatype RunEnd = RunEnd(exitCode: int, summary: Summary, files: Files)

  /**
   * `main`: read the account database (`None` when reading it throws), run the loop over the
   * accepted login names, and report.
   */
  function Main(env: Env, passwd: Option<string>, files: Files): (r: RunEnd)
    ensures r.exitCode == 0 || r.exitCode == 1
    ensures r.exitCode == 1 <==> r.summary.ErrorReported?
    ensures r.summary.SyncCompleted? ==> r.summary.count > 0
    ensures passwd.None? ==> r == RunEnd(1, ErrorReported, files)
  {
    match passwd
    case None => RunEnd(1, ErrorReported, files)
    case Some(text) =>
      match Loop(env, AcceptedNames(Split(text, '\n')), files, 0)
      case Aborted(after) => RunEnd(1, ErrorReported, after)
      case Completed(synced, after) =>
        RunEnd(0, if synced == 0 then NoUsersWithConfig else SyncCompleted(synced), after)
  }

  /** The run fails exactly when the database is unreadable or some eligible account's turn throws. */
  lemma MainFailsIff(env: Env, passwd: Option<string>, files: Files)
    ensures Main(env, passwd, files).exitCode == 1 <==>
      passwd.None? || AnyThrows(env, AcceptedNames(Split(passwd.value, '\n')))
  {
    if passwd.Some? {
      var users := AcceptedNames(Split(passwd.value, '\n'));
      LoopAbortsIff(env, users, files, 0);
    }
  }

  /** A successful run reports how many eligible accounts are managed, or that there are none. */
  lemma MainSummary(env: Env, text: string, files: Files)
    requires Main(env, Some(text), files).exitCode == 0
    ensures var managed := |Filter(AcceptedNames(Split(text, '\n')), Managed(env))|;
      Main(env, Some(text), files).summary ==
        if managed == 0 then NoUsersWithConfig else SyncCompleted(managed)
  {
    LoopCount(env, AcceptedNames(Split(text, '\n')), files, 0);
  }

  /** The account list of a readable database, the one `main` loops over. */
  function Accounts(text: string): seq<string> {
    AcceptedNames(Split(text, '\n'))
  }

  /** A successful run has completed the loop over the listed accounts, throwing on none. */
  lemma MainCompleted(env: Env, text: string, files: Files)
    requires Main(env, Some(text), files).exitCode == 0
    ensures Loop(env, Accounts(text), files, 0).Completed?
    ensures Main(env, Some(text), files).files == Loop(env, Accounts(text), files, 0).files
    ensures !AnyThrows(env, Accounts(text))
  {
    MainFailsIff(env, Some(text), files);
  }

  /** What an account's turn that does not throw leaves in its own keys file. */
  lemma TurnLeaves(env: Env, user: string, files: Files)
    requires !Throws(env, user)
    ensures Existing(Next(env, user, files), AuthorizedKeysPath(user)) ==
      if RemoteIdentity(env, user).Some? then
        SyncedContent(RemoteIdentity(env, user).value, env.fetch(RemoteIdentity(env, user).value),
          Existing(files, AuthorizedKeysPath(user)))
      else Existing(files, AuthorizedKeysPath(user))
  {
    if Turn(env, user, files).Synced? {
      TurnWrites(env, user, files);
    }
  }

  /**
   * After a successful run over a database that lists no account twice, each listed
   * account's keys file holds what its own sync wrote, or is untouched when it is unmanaged.
   */
  lemma {:induction false} MainWrites(env: Env, text: string, files: Files, user: string)
    requires Main(env, Some(text), files).exitCode == 0
    requires Distinct(Accounts(text)) && user in Accounts(text)
    ensures Existing(Main(env, Some(text), files).files, AuthorizedKeysPath(user)) ==
      if RemoteIdentity(env, user).Some? then
        SyncedContent(RemoteIdentity(env, user).value, env.fetch(RemoteIdentity(env, user).value),
          Existing(files, AuthorizedKeysPath(user)))
      else Existing(files, AuthorizedKeysPath(user))
  {
    var users := Accounts(text);
    var j :| 0 <= j < |users| && users[j] == user;
    MainCompleted(env, text, files);
    LoopWrites(env, users, files, 0, j);
    TurnLeaves(env, user, files);
  }

  /** A file that is no listed account's keys file is left as it was by any run. */
  lemma MainFrame(env: Env, text: string, files: Files, path: string)
    requires forall user :: user in Accounts(text) ==> AuthorizedKeysPath(user) != path
    ensures Existing(Main(env, Some(text), files).files, path) == Existing(files, path)
  {
    var users := Accounts(text);
    forall i | 0 <= i < |users| ensures AuthorizedKeysPath(users[i]) != path {
      assert users[i] in users;
    }
    LoopFrame(env, users, files, 0, path);
  }

  /** Writing the same content twice is writing it once (the second sync's write in `main`). */
  lemma RewriteSame(files: Files, path: string, content: string)
    ensures files[path := content][path := content] == files[path := content]
  {
  }

  /** A one-account loop is that account's turn. */
  lemma LoopSingle(env: Env, user: string, files: Files, synced: nat)
    ensures Loop(env, [user], files, synced) ==
      match Turn(env, user, files)
      case Abort => Aborted(files)
      case Synced(next) => Completed(synced + 1, next)
      case _ => Completed(synced, files)
  {
    assert [user][1..] == [];
  }

  /** An account listed twice is synced and counted twice, and the second sync changes nothing. */
  lemma DuplicateAccountIdempotent(env: Env, user: string, files: Files)
    requires RemoteIdentity(env, user).Some? && '\n' !in RemoteIdentity(env, user).value
    requires Loop(env, [user], files, 0).Completed?
    ensures Loop(env, [user, user], files, 0) ==
      Completed(2, Loop(env, [user], files, 0).files)
  {
    var identity := RemoteIdentity(env, user).value;
    var path := AuthorizedKeysPath(user);
    assert [user, user][1..] == [user];
    LoopSingle(env, user, files, 0);
    var step := Turn(env, user, files);
    assert step == SyncTurn(env, identity, path, files);
    var after := step.files;
    assert Loop(env, [user, user], files, 0) == Loop(env, [user], after, 1);
    LoopSingle(env, user, after, 1);
    assert Turn(env, user, after) == SyncTurn(env, identity, path, after);
    match SyncKeys(identity, env.fetch(identity), Existing(files, path))
    case NoKeys =>
      assert after == files;
      assert Turn(env, user, after) == Synced(after);
    case FetchFailed =>
    case Write(content, count) =>
      assert env.writable(path);
      assert after == files[path := content];
      assert env.fetch(identity) == Response(200, env.fetch(identity).body);
      SyncIdempotent(identity, env.fetch(identity).body, Existing(files, path));
      assert Existing(after, path) == Some(content);
      assert SyncKeys(identity, env.fetch(identity), Existing(after, path)) == Write(content, count);
      RewriteSame(files, path, content);
      assert Turn(env, user, after) == Synced(after);
  }

  /**
   * The account's own home field is ignored: a regular account whose record says `/root`
   * is accepted, yet its keys file is looked for under `/home/<name>`.
   */
  lemma HomeFieldIgnored(name: string, uid: nat, others: seq<string>)
    requires uid >= MinRegularUid && name != "" && name != "root" && ':' !in name
    requires |others| == 4 && forall i :: 0 <= i < 4 ==> ':' !in others[i]
    ensures Accepts(Record([name, others[0], Decimal(uid), others[1], others[2], "/root", others[3]]))
    ensures AuthorizedKeysPath(name) == "/home/" + name + "/.ssh/authorized_keys"
  {
    AcceptsRegularAccount(name, uid, "/root", others);
  }
}

=== FILE: passwd.dfy ===
/**
 * The account filter over the text of the system account database (`getLinuxUsers`):
 * one record per line, colon-separated fields, the login name of every record whose
 * numeric ID is at least 1000 (or whose name is `root`) and whose home directory lies
 * under `/home/` (or is `/root`).
 */
module Passwd {
  import opened Wrappers
  import opened Text

  /** The smallest numeric ID of a regular (non-system) account. */
  const MinRegularUid := 1000

  predicate IsDigit(c: char) {
    '0' <= c <= '9'
  }

  predicate AllDigits(s: string) {
    forall i :: 0 <= i < |s| ==> IsDigit(s[i])
  }

  /** The longest prefix of `s` made of decimal digits. */
  function DigitPrefix(s: string): (r: string)
    ensures StartsWith(s, r) && AllDigits(r)
    ensures |r| == |s| || !IsDigit(s[|r|])
  {
    if |s| > 0 && IsDigit(s[0]) then
      var rest := DigitPrefix(s[1..]);
      assert s[1..][..|rest|] == s[1..|rest| + 1];
      [s[0]] + rest
    else []
  }

  /** The value of a string of decimal digits, most significant first. */
  function DigitsValue(d: string): nat
    requires AllDigits(d)
  {
    if |d| == 0 then 0
    else DigitsValue(d[..|d| - 1]) * 10 + (d[|d| - 1] as int - '0' as int)
  }

  /** The canonical decimal spelling of a natural number. */
  function Decimal(n: nat): (r: string)
    ensures |r| >= 1 && AllDigits(r)
    ensures DigitsValue(r) == n
    ensures n > 0 ==> r[0] != '0'
  {
    var last := [('0' as int + n % 10) as char];
    if n < 10 then last
    else
      var r := Decimal(n / 10) + last;
      assert r[..|r| - 1] == Decimal(n / 10);
      r
  }

  /**
   * `parseInt(s, 10)`: skip leading whitespace, read an optional sign, then the longest
   * run of decimal digits; `None` stands for `NaN`, returned when there are no digits.
   */
  function ParseInt(s: string): (r: Option<int>)
    ensures r.Some? ==> exists i :: 0 <= i < |s| && IsDigit(s[i])
  {
    var t := TrimStart(s);
    var signed := |t| > 0 && (t[0] == '-' || t[0] == '+');
    var u := if signed then t[1..] else t;
    var d := DigitPrefix(u);
    if d == [] then None
    else
      assert s[|s| - |u|] == u[0];
      var v: int := DigitsValue(d);
      Some(if signed && t[0] == '-' then -v else v)
  }

  /** A run of digits is its own longest digit prefix. */
  lemma {:induction false} DigitPrefixAll(s: string)
    requires AllDigits(s)
    ensures DigitPrefix(s) == s
  {
    if |s| > 0 {
      DigitPrefixAll(s[1..]);
      assert [s[0]] + s[1..] == s;
    }
  }

  /** A digit is never whitespace, so `parseInt` has nothing to skip before one. */
  lemma DigitNotWhitespace(c: char)
    requires IsDigit(c)
    ensures !IsWhitespace(c)
  {
  }

  /** A string starting with a digit or a sign is left alone by the whitespace skip. */
  lemma TrimStartKeeps(s: string)
    requires |s| >= 1 && (IsDigit(s[0]) || s[0] == '-')
    ensures TrimStart(s) == s
  {
    if IsDigit(s[0]) {
      DigitNotWhitespace(s[0]);
    } else {
      assert !IsWhitespace('-');
    }
    TrimStartNoLead(s);
  }

  /** An unsigned run of digits parses to its value. */
  lemma ParseIntDigits(s: string)
    requires |s| >= 1 && AllDigits(s)
    ensures ParseInt(s) == Some(DigitsValue(s) as int)
  {
    TrimStartKeeps(s);
    DigitPrefixAll(s);
  }

  /** `parseInt` reads back the decimal spelling of every natural number. */
  lemma ParseIntDecimal(n: nat)
    ensures ParseInt(Decimal(n)) == Some(n)
  {
    ParseIntDigits(Decimal(n));
  }

  /** ... and of its negation, written with a leading minus sign. */
  lemma ParseIntNegative(n: nat)
    ensures ParseInt("-" + Decimal(n)) == Some(-(n as int))
  {
    var s := "-" + Decimal(n);
    TrimStartKeeps(s);
    assert s[1..] == Decimal(n);
    DigitPrefixAll(Decimal(n));
  }

  /** A field with no digit at all parses to `NaN`, which fails every comparison. */
  lemma ParseIntNoDigits(s: string)
    requires forall i :: 0 <= i < |s| ==> !IsDigit(s[i])
    ensures ParseInt(s).None?
  {
  }

  /** The fields of a record that the filter reads. */
  datatype Entry = Entry(name: string, uid: Option<int>, home: string)

  /** The colon-separated fields of one record. */
  function Fields(line: string): seq<string> {
    Split(line, ':')
  }

  /** A record with fewer than six fields is skipped; otherwise fields 0, 2 and 5 are read. */
  function ParseEntry(line: string): (r: Option<Entry>)
    ensures r.Some? <==> |Fields(line)| >= 6
  {
    var f := Fields(line);
    if |f| < 6 then None else Some(Entry(f[0], ParseInt(f[2]), f[5]))
  }

  /** The UID test and the home-directory test of the filter. */
  predicate Selected(e: Entry) {
    && ((e.uid.Some? && e.uid.value >= MinRegularUid) || e.name == "root")
    && e.home != ""
    && (StartsWith(e.home, "/home/") || e.home == "/root")
  }

  /** The record on this line yields its login name. */
  predicate Accepts(line: string) {
    ParseEntry(line).Some? && Selected(ParseEntry(line).value)
  }

  /** The first field of a record: its login name. */
  function LoginName(line: string): string {
    Split(line, ':')[0]
  }

  /** The login names of the accepted records, in record order. */
  function AcceptedNames(lines: seq<string>): (r: seq<string>)
    ensures |r| <= |lines|
    ensures forall name :: name in r ==>
      exists line :: line in lines && Accepts(line) && LoginName(line) == name
  {
    MapFilterSound(lines, Accepts, LoginName);
    Map(Filter(lines, Accepts), LoginName)
  }

  /** A record is accepted exactly when it has six fields, passes the UID test and the home test. */
  lemma AcceptsIff(line: string)
    ensures Accepts(line) <==>
      && |Fields(line)| >= 6
      && (var uid := ParseInt(Fields(line)[2]);
          (uid.Some? && uid.value >= MinRegularUid) || Fields(line)[0] == "root")
      && (StartsWith(Fields(line)[5], "/home/") || Fields(line)[5] == "/root")
  {
  }

  /** Names of consecutive blocks of records concatenate: order is kept and duplicates stay. */
  lemma AcceptedNamesAppend(a: seq<string>, b: seq<string>)
    ensures AcceptedNames(a + b) == AcceptedNames(a) + AcceptedNames(b)
  {
    FilterAppend(a, b, Accepts);
    MapAppend(Filter(a, Accepts), Filter(b, Accepts), LoginName);
  }

  /** One record contributes its login name when accepted and nothing otherwise. */
  lemma AcceptedNamesSingle(line: string)
    ensures AcceptedNames([line]) == if Accepts(line) then [LoginName(line)] else []
  {
    assert [line][1..] == [];
  }

  /** One more record extends the names by its login name when accepted, and by nothing otherwise. */
  lemma AcceptedNamesStep(lines: seq<string>, i: nat)
    requires i < |lines|
    ensures AcceptedNames(lines[..i + 1]) ==
      AcceptedNames(lines[..i]) + if Accepts(lines[i]) then [LoginName(lines[i])] else []
  {
    AcceptedNamesAppend(lines[..i], [lines[i]]);
    AcceptedNamesSingle(lines[i]);
    assert lines[..i + 1] == lines[..i] + [lines[i]];
  }

  /** A name is listed exactly when some accepted record carries it. */
  lemma AcceptedNamesMember(lines: seq<string>, name: string)
    ensures name in AcceptedNames(lines) <==>
      exists line :: line in lines && Accepts(line) && LoginName(line) == name
  {
    MapFilterMember(lines, Accepts, LoginName, name);
  }

  /** `getLinuxUsers` on the database text: walk the lines in order, keeping accepted names. */
  method GetLinuxUsers(passwd: string) returns (users: seq<string>)
    ensures users == AcceptedNames(Split(passwd, '\n'))
    ensures forall name :: name in users <==>
      exists line :: line in Split(passwd, '\n') && Accepts(line) && LoginName(line) == name
  {
    var lines := Split(passwd, '\n');
    users := [];
    var i := 0;
    while i < |lines|
      invariant 0 <= i <= |lines|
      invariant users == AcceptedNames(lines[..i])
    {
      var line := lines[i];
      AcceptedNamesStep(lines, i);
      var parts := Fields(line);
      if |parts| >= 6 {
        var username := parts[0];
        var uid := ParseInt(parts[2]);
        var homeDir := parts[5];
        assert ParseEntry(line) == Some(Entry(username, uid, homeDir));
        if (uid.Some? && uid.value >= MinRegularUid) || username == "root" {
          if homeDir != "" && (StartsWith(homeDir, "/home/") || homeDir == "/root") {
            users := users + [username];
          }
        }
      }
      i := i + 1;
    }
    assert lines[..i] == lines;
    forall name ensures name in users <==>
      exists line :: line in lines && Accepts(line) && LoginName(line) == name
    {
      AcceptedNamesMember(lines, name);
    }
  }

  /** A record written out from its fields. */
  function Record(fields: seq<string>): string {
    Join(fields, ':')
  }

  /** The fields of a record written out from colon-free fields are those fields. */
  lemma FieldsOfRecord(fields: seq<string>)
    requires |fields| >= 1
    requires forall i :: 0 <= i < |fields| ==> ':' !in fields[i]
    ensures Fields(Record(fields)) == fields
  {
    SplitJoin(fields, ':');
  }

  /** A regular account (UID at least 1000) whose home lies under `/home/` or is `/root` is accepted. */
  lemma AcceptsRegularAccount(name: string, uid: nat, home: string, others: seq<string>)
    requires uid >= MinRegularUid && (StartsWith(home, "/home/") || home == "/root")
    requires |others| == 4 && forall i :: 0 <= i < 4 ==> ':' !in others[i]
    requires ':' !in name && ':' !in home
    ensures Accepts(Record([name, others[0], Decimal(uid), others[1], others[2], home, others[3]]))
  {
    var fields := [name, others[0], Decimal(uid), others[1], others[2], home, others[3]];
    FieldsOfRecord(fields);
    ParseIntDecimal(uid);
    assert ParseEntry(Record(fields)) == Some(Entry(name, Some(uid), home));
  }

  /** `root` is accepted with its administrative home whatever its UID field says. */
  lemma AcceptsRoot(others: seq<string>)
    requires |others| == 5 && forall i :: 0 <= i < 5 ==> ':' !in others[i]
    ensures Accepts(Record(["root", others[0], others[1], others[2], others[3], "/root", others[4]]))
  {
    FieldsOfRecord(["root", others[0], others[1], others[2], others[3], "/root", others[4]]);
  }

  /** A system account (UID below 1000, not `root`) is refused wherever its home is. */
  lemma RejectsSystemAccount(name: string, uid: nat, home: string, others: seq<string>)
    requires uid < MinRegularUid && name != "root"
    requires |others| == 4 && forall i :: 0 <= i < 4 ==> ':' !in others[i]
    requires ':' !in name && ':' !in home
    ensures !Accepts(Record([name, others[0], Decimal(uid), others[1], others[2], home, others[3]]))
  {
    var fields := [name, others[0], Decimal(uid), others[1], others[2], home, others[3]];
    FieldsOfRecord(fields);
    ParseIntDecimal(uid);
    assert ParseEntry(Record(fields)) == Some(Entry(name, Some(uid), home));
  }

  /** A record whose home is neither under `/home/` nor `/root` is refused whatever its UID. */
  lemma RejectsOtherHome(fields: seq<string>)
    requires |fields| >= 6 && forall i :: 0 <= i < |fields| ==> ':' !in fields[i]
    requires !StartsWith(fields[5], "/home/") && fields[5] != "/root"
    ensures !Accepts(Record(fields))
  {
    FieldsOfRecord(fields);
  }

  /** A record with fewer than six fields is refused. */
  lemma RejectsShortRecord(fields: seq<string>)
    requires 1 <= |fields| < 6 && forall i :: 0 <= i < |fields| ==> ':' !in fields[i]
    ensures !Accepts(Record(fields))
  {
    FieldsOfRecord(fields);
  }
}

=== FILE: paths.dfy ===
/**
 * Where the script looks for an account's files (`getHomeDir`, `getConfigPath`,
 * `getAuthorizedKeysPath`). The home directory is recomputed from the login name alone;
 * the home field of the account record plays no part.
 */
module Paths {
  import opened Text

  const AdminHome := "/root"
  const UsersRoot := "/home"
  const ConfigSuffix := "/.config/github-ssh-sync/config.json"
  const KeysSuffix := "/.ssh/authorized_keys"

  /** `path.join(base, seg)` for a segment free of `/`, `.` and `..`: an empty segment adds nothing. */
  function JoinPath(base: string, seg: string): string {
    if seg == "" then base else base + "/" + seg
  }

  /** `getHomeDir`: `/root` for `root`, otherwise the login name under `/home`. */
  function HomeDir(user: string): (r: string)
    ensures user == "root" ==> r == "/root"
    ensures user != "root" && user != "" ==> r == "/home/" + user
    ensures user == "" ==> r == "/home"
  {
    if user == "root" then AdminHome else JoinPath(UsersRoot, user)
  }

  /** `getConfigPath`: the per-account configuration file. */
  function ConfigPath(user: string): (r: string)
    ensures user == "root" ==> r == "/root" + "/.config/github-ssh-sync/config.json"
    ensures user != "root" && user != "" ==> r == "/home/" + user + "/.config/github-ssh-sync/config.json"
    ensures user == "" ==> r == "/home" + "/.config/github-ssh-sync/config.json"
  {
    HomeDir(user) + ConfigSuffix
  }

  /** `getAuthorizedKeysPath`: the per-account authorized-keys file. */
  function AuthorizedKeysPath(user: string): (r: string)
    ensures user == "root" ==> r == "/root" + "/.ssh/authorized_keys"
    ensures user != "root" && user != "" ==> r == "/home/" + user + "/.ssh/authorized_keys"
    ensures user == "" ==> r == "/home" + "/.ssh/authorized_keys"
  {
    HomeDir(user) + KeysSuffix
  }

  /** Two names with the same home directory plus `suffix` are the same name. */
  lemma HomeSuffixInjective(u1: string, u2: string, suffix: string)
    requires HomeDir(u1) + suffix == HomeDir(u2) + suffix
    ensures u1 == u2
  {
    var p1, p2 := HomeDir(u1) + suffix, HomeDir(u2) + suffix;
    assert HomeDir(u1) == p1[..|p1| - |suffix|];
    assert HomeDir(u2) == p2[..|p2| - |suffix|];
    var h1, h2 := HomeDir(u1), HomeDir(u2);
    if u1 != "root" && u1 != "" && u2 != "root" && u2 != "" {
      assert u1 == h1[6..];
      assert u2 == h2[6..];
    }
  }

  /** Distinct accounts never share an authorized-keys file. */
  lemma AuthorizedKeysPathInjective(u1: string, u2: string)
    requires AuthorizedKeysPath(u1) == AuthorizedKeysPath(u2)
    ensures u1 == u2
  {
    HomeSuffixInjective(u1, u2, KeysSuffix);
  }

  /** Distinct accounts never share a configuration file. */
  lemma ConfigPathInjective(u1: string, u2: string)
    requires ConfigPath(u1) == ConfigPath(u2)
    ensures u1 == u2
  {
    HomeSuffixInjective(u1, u2, ConfigSuffix);
  }

  /** A non-empty login name gets a home directory that the account filter's home test accepts. */
  lemma HomeDirPassesHomeTest(user: string)
    requires user != ""
    ensures StartsWith(HomeDir(user), "/home/") || HomeDir(user) == "/root"
  {
    if user != "root" {
      assert HomeDir(user)[..6] == "/home/";
    }
  }
}

=== FILE: text.dfy ===
/**
 * The JavaScript string operations the script relies on, over `seq<char>`:
 * `String.prototype.trim`, `split` on a one-character separator, `Array.prototype.join`,
 * `includes`, `startsWith`, `Array.prototype.filter` and `Array.prototype.map`.
 */
module Text {

  /** The code points `trim` removes: ECMAScript WhiteSpace and LineTerminator. */
  predicate IsWhitespace(c: char) {
    || c == '\t' || c == '\n' || c == '\U{B}' || c == '\U{C}' || c == '\r'
    || c == ' ' || c == '\U{A0}' || c == '\U{1680}'
    || ('\U{2000}' <= c <= '\U{200A}')
    || c == '\U{2028}' || c == '\U{2029}' || c == '\U{202F}' || c == '\U{205F}'
    || c == '\U{3000}' || c == '\U{FEFF}'
  }

  /** A string made only of whitespace (the empty string included). */
  predicate Blank(s: string) {
    forall i :: 0 <= i < |s| ==> IsWhitespace(s[i])
  }

  /** Whitespace runs concatenate to a whitespace run. */
  lemma BlankAppend(a: string, b: string)
    requires Blank(a) && Blank(b)
    ensures Blank(a + b)
  {
  }

  /** Drops leading whitespace. */
  function TrimStart(s: string): (r: string)
    ensures |r| <= |s| && r == s[|s| - |r|..]
    ensures Blank(s[..|s| - |r|])
    ensures r == [] || !IsWhitespace(r[0])
  {
    if |s| > 0 && IsWhitespace(s[0]) then
      var r := TrimStart(s[1..]);
      assert s[..|s| - |r|] == [s[0]] + s[1..][..|s| - 1 - |r|];
      BlankAppend([s[0]], s[1..][..|s| - 1 - |r|]);
      r
    else s
  }

  /** A string that does not start with whitespace is its own `TrimStart`. */
  lemma TrimStartNoLead(s: string)
    requires s == [] || !IsWhitespace(s[0])
    ensures TrimStart(s) == s
  {
  }

  /** Drops trailing whitespace. */
  function TrimEnd(s: string): (r: string)
    ensures |r| <= |s| && r == s[..|r|]
    ensures Blank(s[|r|..])
    ensures r == [] || !IsWhitespace(r[|r| - 1])
  {
    if |s| > 0 && IsWhitespace(s[|s| - 1]) then
      var r := TrimEnd(s[..|s| - 1]);
      assert s[|r|..] == s[..|s| - 1][|r|..] + [s[|s| - 1]];
      BlankAppend(s[..|s| - 1][|r|..], [s[|s| - 1]]);
      r
    else s
  }

  /** `s.trim()`: the longest slice of `s` that neither starts nor ends with whitespace. */
  function Trim(s: string): (r: string)
    ensures r == [] <==> Blank(s)
    ensures r != [] ==> !IsWhitespace(r[0]) && !IsWhitespace(r[|r| - 1])
  {
    var t := TrimStart(s);
    var r := TrimEnd(t);
    TrimBlank(s, t, r);
    r
  }

  /** Trimming leaves nothing exactly when the string is all whitespace. */
  lemma TrimBlank(s: string, t: string, r: string)
    requires t == TrimStart(s) && r == TrimEnd(t)
    ensures r == [] <==> Blank(s)
  {
    if r == [] {
      assert t[0..] == t;
      assert t == [];
      assert s[..|s|] == s;
    } else {
      assert r[0] == t[0] == s[|s| - |t|];
    }
  }

  /** `trim` returns a contiguous slice of its argument. */
  lemma TrimWithin(s: string)
    ensures Contains(s, Trim(s))
  {
    var t := TrimStart(s);
    var r := TrimEnd(t);
    var a := |s| - |t|;
    assert s[a..][..|r|] == s[a..a + |r|];
    assert OccursAt(s, r, a);
  }

  /** Trimming a trimmed string changes nothing. */
  lemma TrimIdempotent(s: string)
    ensures Trim(Trim(s)) == Trim(s)
  {
    var t := Trim(s);
    if t != [] {
      assert TrimStart(t) == t;
      assert TrimEnd(t) == t;
    }
  }

  /** Trimming removes exactly the whitespace padding around a string that starts and ends with text. */
  lemma {:induction false} TrimPadded(lead: string, x: string, trail: string)
    requires Blank(lead) && Blank(trail)
    requires |x| > 0 && !IsWhitespace(x[0]) && !IsWhitespace(x[|x| - 1])
    ensures Trim(lead + x + trail) == x
  {
    assert lead + x + trail == lead + (x + trail);
    TrimStartPadded(lead, x + trail);
    assert TrimStart(lead + x + trail) == x + trail;
    TrimEndPadded(x, trail);
    assert TrimEnd(x + trail) == x;
  }

  lemma {:induction false} TrimStartPadded(lead: string, x: string)
    requires Blank(lead) && |x| > 0 && !IsWhitespace(x[0])
    ensures TrimStart(lead + x) == x
  {
    if |lead| > 0 {
      assert (lead + x)[1..] == lead[1..] + x;
      TrimStartPadded(lead[1..], x);
    }
  }

  lemma {:induction false} TrimEndPadded(x: string, trail: string)
    requires Blank(trail) && |x| > 0 && !IsWhitespace(x[|x| - 1])
    ensures TrimEnd(x + trail) == x
  {
    if |trail| > 0 {
      var s := x + trail;
      assert s[..|s| - 1] == x + trail[..|trail| - 1];
      TrimEndPadded(x, trail[..|trail| - 1]);
    } else {
      assert x + trail == x;
    }
  }

  /** `s.startsWith(p)`. */
  predicate StartsWith(s: string, p: string) {
    |p| <= |s| && s[..|p|] == p
  }

  /** `s.includes(sub)`: `sub` occurs somewhere in `s` as a contiguous slice. */
  predicate Contains(s: string, sub: string) {
    exists i :: 0 <= i <= |s| && OccursAt(s, sub, i)
  }

  /** `sub` occurs in `s` starting at index `i`. */
  predicate OccursAt(s: string, sub: string, i: nat) {
    i + |sub| <= |s| && s[i..i + |sub|] == sub
  }

  /** A string occurs in any string built around it. */
  lemma ContainsInfix(a: string, b: string, c: string)
    ensures Contains(a + b + c, b)
  {
    var s := a + b + c;
    assert s[|a|..|a| + |b|] == b;
    assert OccursAt(s, b, |a|);
  }

  /** A string that contains a non-blank string is not blank. */
  lemma ContainsNonBlank(s: string, sub: string)
    requires Contains(s, sub) && !Blank(sub)
    ensures !Blank(s)
  {
    var i :| 0 <= i <= |s| && OccursAt(s, sub, i);
    var j :| 0 <= j < |sub| && !IsWhitespace(sub[j]);
    assert s[i + j] == sub[j];
  }

  /** `xs.join([sep])`; the empty array joins to the empty string. */
  function Join(xs: seq<string>, sep: char): (r: string)
    ensures |xs| >= 1 ==> StartsWith(r, xs[0])
    ensures sep !in r <==> |xs| <= 1 && forall i :: 0 <= i < |xs| ==> sep !in xs[i]
  {
    if |xs| == 0 then ""
    else if |xs| == 1 then xs[0]
    else
      var r := xs[0] + [sep] + Join(xs[1..], sep);
      assert r[|xs[0]|] == sep;
      assert r[..|xs[0]|] == xs[0];
      r
  }

  /** Joining with an empty last piece leaves a trailing separator. */
  lemma {:induction false} JoinTrailingEmpty(xs: seq<string>, sep: char)
    requires |xs| >= 1
    ensures Join(xs + [""], sep) == Join(xs, sep) + [sep]
  {
    if |xs| == 1 {
      assert (xs + [""])[1..] == [""];
    } else {
      assert (xs + [""])[1..] == xs[1..] + [""];
      JoinTrailingEmpty(xs[1..], sep);
    }
  }

  /** Joining pieces that are all blank with a whitespace separator gives a blank string. */
  lemma {:induction false} JoinBlank(xs: seq<string>, sep: char)
    requires IsWhitespace(sep)
    requires forall i :: 0 <= i < |xs| ==> Blank(xs[i])
    ensures Blank(Join(xs, sep))
  {
    if |xs| > 1 {
      JoinBlank(xs[1..], sep);
      var rest := Join(xs[1..], sep);
      var s := xs[0] + [sep] + rest;
      forall i | 0 <= i < |s| ensures IsWhitespace(s[i]) {
        if i < |xs[0]| {
          assert s[i] == xs[0][i];
        } else if i > |xs[0]| {
          assert s[i] == rest[i - |xs[0]| - 1];
        }
      }
    }
  }

  /**
   * `s.split(sep)` for a one-character separator: the pieces between separators,
   * which joined back with the separator give `s`.
   */
  function Split(s: string, sep: char): (r: seq<string>)
    ensures |r| >= 1
    ensures forall i :: 0 <= i < |r| ==> sep !in r[i]
    ensures Join(r, sep) == s
  {
    if |s| == 0 then [""]
    else
      var rest := Split(s[1..], sep);
      if s[0] == sep then
        assert s == [sep] + s[1..];
        [""] + rest
      else
        var r := [[s[0]] + rest[0]] + rest[1..];
        assert |rest| > 1 ==> Join(rest, sep) == rest[0] + [sep] + Join(rest[1..], sep);
        assert s == [s[0]] + s[1..];
        assert r[1..] == rest[1..];
        r
  }

  /** A piece with no separator in it splits to itself. */
  lemma {:induction false} SplitNoSeparator(x: string, sep: char)
    requires sep !in x
    ensures Split(x, sep) == [x]
  {
    if |x| > 0 {
      SplitNoSeparator(x[1..], sep);
      assert [x[0]] + x[1..] == x;
    }
  }

  /** Splitting stops at the first separator. */
  lemma {:induction false} SplitAfterPiece(x: string, sep: char, t: string)
    requires sep !in x
    ensures Split(x + [sep] + t, sep) == [x] + Split(t, sep)
  {
    var s := x + [sep] + t;
    if |x| == 0 {
      assert s[1..] == t;
    } else {
      assert s[1..] == x[1..] + [sep] + t;
      SplitAfterPiece(x[1..], sep, t);
      assert [x[0]] + x[1..] == x;
    }
  }

  /** No piece of either list holds `sep`, so no piece of their concatenation does. */
  lemma FreeOfAppend(a: seq<string>, b: seq<string>, sep: char)
    requires forall i :: 0 <= i < |a| ==> sep !in a[i]
    requires forall i :: 0 <= i < |b| ==> sep !in b[i]
    ensures forall i :: 0 <= i < |a + b| ==> sep !in (a + b)[i]
  {
  }

  /** Split undoes Join when no piece holds the separator. */
  lemma {:induction false} SplitJoin(xs: seq<string>, sep: char)
    requires |xs| >= 1
    requires forall i :: 0 <= i < |xs| ==> sep !in xs[i]
    ensures Split(Join(xs, sep), sep) == xs
  {
    if |xs| == 1 {
      SplitNoSeparator(xs[0], sep);
    } else {
      SplitJoin(xs[1..], sep);
      SplitAfterPiece(xs[0], sep, Join(xs[1..], sep));
      assert [xs[0]] + xs[1..] == xs;
    }
  }

  /** If the text holds a non-whitespace character, some piece of its split does too. */
  lemma SplitNotAllBlank(s: string, sep: char)
    requires IsWhitespace(sep) && !Blank(s)
    ensures exists i :: 0 <= i < |Split(s, sep)| && !Blank(Split(s, sep)[i])
  {
    var xs := Split(s, sep);
    if forall i :: 0 <= i < |xs| ==> Blank(xs[i]) {
      JoinBlank(xs, sep);
      assert false;
    }
  }

  /** `xs.filter(p)`: the elements satisfying `p`, in their original order. */
  function Filter<T>(xs: seq<T>, p: T -> bool): (r: seq<T>)
    ensures |r| <= |xs|
    ensures forall i :: 0 <= i < |r| ==> p(r[i])
  {
    if |xs| == 0 then []
    else if p(xs[0]) then [xs[0]] + Filter(xs[1..], p)
    else Filter(xs[1..], p)
  }

  /** Filtering distributes over concatenation: relative order is kept, duplicates are not merged. */
  lemma {:induction false} FilterAppend<T>(a: seq<T>, b: seq<T>, p: T -> bool)
    ensures Filter(a + b, p) == Filter(a, p) + Filter(b, p)
  {
    if |a| > 0 {
      assert (a + b)[1..] == a[1..] + b;
      FilterAppend(a[1..], b, p);
    } else {
      assert a + b == b;
    }
  }

  /** An element survives filtering exactly when it is present and satisfies the predicate. */
  lemma {:induction false} FilterMember<T>(xs: seq<T>, p: T -> bool, x: T)
    ensures x in Filter(xs, p) <==> x in xs && p(x)
  {
    if |xs| > 0 {
      FilterMember(xs[1..], p, x);
      assert xs == [xs[0]] + xs[1..];
    }
  }

  /** Filtering keeps a sequence whose every element passes unchanged. */
  lemma {:induction false} FilterAll<T>(xs: seq<T>, p: T -> bool)
    requires forall i :: 0 <= i < |xs| ==> p(xs[i])
    ensures Filter(xs, p) == xs
  {
    if |xs| > 0 {
      FilterAll(xs[1..], p);
      assert [xs[0]] + xs[1..] == xs;
    }
  }

  /** Filtering empties a sequence whose every element fails. */
  lemma {:induction false} FilterNone<T>(xs: seq<T>, p: T -> bool)
    requires forall i :: 0 <= i < |xs| ==> !p(xs[i])
    ensures Filter(xs, p) == []
  {
    if |xs| > 0 {
      FilterNone(xs[1..], p);
    }
  }

  /** Removing a block of failing elements from between two passing blocks keeps both in order. */
  lemma FilterSandwich<T>(a: seq<T>, m: seq<T>, b: seq<T>, p: T -> bool)
    requires forall i :: 0 <= i < |a| ==> p(a[i])
    requires forall i :: 0 <= i < |m| ==> !p(m[i])
    requires forall i :: 0 <= i < |b| ==> p(b[i])
    ensures Filter(a + m + b, p) == a + b
  {
    FilterAll(a, p);
    FilterNone(m, p);
    FilterAppend(a, m, p);
    assert Filter(a + m, p) == a;
    FilterAll(b, p);
    FilterAppend(a + m, b, p);
  }

  /** `xs.map(f)`. */
  function Map<T, U>(xs: seq<T>, f: T -> U): (r: seq<U>)
    ensures |r| == |xs|
    ensures forall i :: 0 <= i < |xs| ==> r[i] == f(xs[i])
  {
    if |xs| == 0 then [] else [f(xs[0])] + Map(xs[1..], f)
  }

  /** Mapping distributes over concatenation. */
  lemma MapAppend<T, U>(a: seq<T>, b: seq<T>, f: T -> U)
    ensures Map(a + b, f) == Map(a, f) + Map(b, f)
  {
  }

  /** A value is among the images of the kept elements exactly when some kept element maps to it. */
  lemma {:induction false} MapFilterMember<T, U>(xs: seq<T>, p: T -> bool, f: T -> U, y: U)
    ensures y in Map(Filter(xs, p), f) <==> exists x :: x in xs && p(x) && f(x) == y
  {
    if |xs| > 0 {
      MapFilterMember(xs[1..], p, f, y);
      assert xs == [xs[0]] + xs[1..];
      if p(xs[0]) {
        assert Map(Filter(xs, p), f) == [f(xs[0])] + Map(Filter(xs[1..], p), f);
      }
    }
  }

  /** Every image of a kept element comes from some kept element of the list. */
  lemma MapFilterSound<T, U>(xs: seq<T>, p: T -> bool, f: T -> U)
    ensures forall y :: y in Map(Filter(xs, p), f) ==> exists x :: x in xs && p(x) && f(x) == y
  {
    forall y | y in Map(Filter(xs, p), f) ensures exists x :: x in xs && p(x) && f(x) == y {
      MapFilterMember(xs, p, f, y);
    }
  }
}

=== FILE: wrappers.dfy ===
/** Optional values, standing in for JavaScript's `null`, `undefined` and `NaN`. */
module Wrappers {

  datatype Option<+T> = None | Some(value: T)
}
